=== FILE: README.md ===
# Guard policy core, modelled in Dafny

The system is a chat-server guard bot. It watches one or more guilds for
destructive administrative actions: bans, kicks, channel creation and deletion,
and role deletion and edits. It attributes each action to the executor of the
newest matching audit-log entry. Executors that are untrusted get banned, with a
15-second per-executor cooldown, and the guard writes a record to a log channel.
The owner of the bot configures it with three commands: the log channel, and
adding or removing trusted users.

This project models the policy core as pure transitions. Each transition takes
the state and an abstract input and returns the new state, the effects it
requests in order, and whether an exception escaped the handler.

- The state holds three things: the trust set `whitelist`, the cooldown map
  `recentlyPunished`, and the guild-to-log-channel binding `logChannels`.
- The effects are `Ban`, `DeleteChannel`, `Log` and `Answer`. `Log` is a request
  to `send_log` and `Answer` is a command's reply.

Modules:

- `Types` (`types.dfy`): identifiers, the constants `OWNER_ID`, `COOLDOWN` (15)
  and `LOG_CHANNEL_NAME` (`security-logs`), the state, effects, and the `Bans`
  and `Logs` projections of an effect sequence.
- `Trust` (`trust.dfy`): `is_whitelisted`, plus owner exemption.
- `Cooldown` (`cooldown.dfy`): `punish_and_revert`, the cooldown check and the
  punish step.
- `LogChannel` (`logchannel.dfy`): `get_log_channel` resolution order and
  `send_log`.
- `Events` (`events.dfy`): the six audit-driven `on_*` handlers.
- `Commands` (`commands.dfy`): `setlog`, `whitelist_add` and `whitelist_remove`.
- `Trace` (`trace.dfy`): inputs applied in sequence, with the burst-suppression
  and cooldown-expiry properties and a role-deletion-then-kick scenario.

Inputs that replace platform calls:

- The audit query result is a sequence of entries. An entry is the executor and
  whether they hold the administrator permission. The handler iterates over it
  as `async for` does, and with the query's limit of one it has at most one
  entry (`Events.HandleSingle`).
- The clock is an integer number of seconds.
- The ban outcome and whether log delivery raises are a `PunishOracle`.
- The guild's channel list is a sequence of `(id, name, isText)` in position
  order. The outcome of creating the fallback channel is an `Option`.

### The failure record after a successful ban

In `main.py:58-62` the `try` covers both the ban and the delivery of the
auto-ban record. If the ban succeeds but sending that record into the resolved
log channel raises, the `except` branch requests the "failed to punish" record
as well. If sending that second record also raises, the exception leaves the
handler, and in the channel-creation handler the channel deletion is then
skipped. In the code the second send can also succeed. The model assumes both
sends in one step either raise or succeed together; the `Cooldown.Punish` line
under "## Left out" records this assumption. Under it:

- `Cooldown.Punish` requests exactly one log record exactly when the auto-ban
  record's delivery does not raise.
- `Events.HandleEntry` deletes the created channel exactly when the punish step
  did not raise.

## Model

| member | source | states |
|---|---|---|
| Trust.IsWhitelisted | main.py:24-25 | Administrator permission alone whitelists a user, trust-set membership alone does too, and a non-administrator is whitelisted only through the trust set |
| Trust.Exempt | main.py:77 | The owner is exempt whatever the trust set holds, every whitelisted user is exempt, and any other exempt user is in the trust set or an administrator; the same guard stands at lines 86, 95, 108, 117 and 126 |
| Cooldown.InCooldown | main.py:54 | A user never punished is not in cooldown; a punished one is in cooldown exactly while `now` is before the recorded time plus 15 s |
| Cooldown.Punish | main.py:51-62 | Inside the 15 s window: no state change and no effects. Otherwise: the executor's time is set to `now` before the ban, every other cooldown entry, the trust set and the bindings are kept, exactly one ban is requested first, the auto-ban record is logged iff the ban succeeded, the failure record iff the ban failed or log delivery raised, exactly one record unless both; the records in order are the failure record alone, the auto-ban record alone, or the auto-ban record then the failure record; and the step raises iff log delivery raised |
| Cooldown.PunishStartsCooldown | main.py:54-56 | After a non-suppressed step at `now`, any step for the same executor at a time less than `now + 15` does nothing, whatever the first ban's outcome |
| Cooldown.CooldownExpires | main.py:54-56 | Once 15 s have passed since the recorded time, the step bans again and records the new time |
| LogChannel.FirstTextNamed | main.py:36 | Returns the position of the first text channel with the name, and none iff there is none |
| LogChannel.ResolveLogChannel | main.py:28-42 | Resolution order: a bound channel that still exists wins; otherwise the first text channel named `security-logs`; otherwise the created channel; otherwise nothing, iff creation failed. Each case holds iff the earlier ones fail |
| LogChannel.SendLog | main.py:45-48 | Delivers the record, unchanged, to exactly the channel the resolution picked, and nothing iff no channel resolved |
| LogChannel.SendLogDropsOnlyWithoutChannel | main.py:37-48 | A record is dropped only when no bound channel exists and creation failed; when creation succeeds the record is always delivered |
| LogChannel.StaleBindingIgnored | main.py:30-33 | A binding whose channel no longer exists resolves as if the guild were unbound |
| LogChannel.CreationOnlyAsLastResort | main.py:36-41 | When either lookup hits, the creation outcome does not affect the result |
| Events.ReasonFor | main.py:78-127 | Each handler's punish reason carries the tag of its own event kind, one to one, and names the handler's target: the banned user, the removed member, or the deleted or updated role |
| Events.HandleEntry | main.py:73-127 | Exempt executors (owner, trusted, administrator) cause nothing. Only the executor's cooldown entry can change. Every ban is of the executor in the event's guild with the handler's reason, and every logged record is about the executor with that reason. An untrusted executor outside the cooldown is banned once, and the handler logs exactly the punish step's records. Inside the cooldown nothing is banned or logged. The handler requests only bans, logs and deletions. Only channel creation deletes, only the created channel, at most once and as the last effect, and exactly when the executor is untrusted and the punish step did not raise. The handler raises exactly when the executor is untrusted, outside the cooldown, and log delivery raised |
| Events.Handle | main.py:73-127 | An empty audit result changes nothing and requests nothing. All-exempt entries cause nothing. Events never touch the trust set or the bindings. Cooldown entries of non-attributed users are kept. Every banned user is an attributed non-exempt executor |
| Events.HandleSingle | main.py:75 | With the one-entry query limit, a handler is its body applied to that entry |
| Events.SuppressedCreationStillDeleted | main.py:90-100 | A channel created by an untrusted executor in cooldown is still deleted, with no ban, no log and no state change |
| Events.UnsuppressedCreationDeleted | main.py:94-100 | Outside the cooldown, a channel created by an untrusted executor leads to one ban of the executor, and the channel is deleted exactly when log delivery did not raise |
| Commands.SetLog | main.py:133-140 | A non-owner is refused and nothing changes. For the owner: this guild is bound to the channel, other guilds' bindings, the trust set and the cooldown map are kept |
| Commands.WhitelistAdd | main.py:153-158 | A non-owner is refused and nothing changes. For the owner: the member becomes trusted, the rest of the trust set and both maps are kept |
| Commands.WhitelistRemove | main.py:161-166 | A non-owner is refused and nothing changes. For the owner: the member becomes untrusted even if absent before, the rest of the trust set and both maps are kept |
| Commands.RemoveUndoesAdd | main.py:153-166 | Owner add then remove of an untrusted member restores the state |
| Commands.AddUndoesRemove | main.py:153-166 | Owner remove then add of a trusted member restores the state |
| Commands.WhitelistIdempotent | main.py:157-165 | Repeating either whitelist command gives the same state and reply |
| Commands.TrustFollowsCommands | main.py:24-25 | After an owner add the member is whitelisted. After an owner remove the member is whitelisted iff they are an administrator |
| Commands.OwnerExemptAfterSelfRemoval | main.py:161-165 | The owner removing themselves leaves them outside the trust set but still exempt |
| Commands.SetLogDirectsLogs | main.py:28-33 | After the owner binds an existing channel, resolution picks that channel |
| Commands.SetLogOverwrites | main.py:139 | A second `setlog` for the same guild overwrites the first |
| Trace.Apply | main.py:73-166 | Only owner commands change the trust set or bindings. Commands never touch the cooldown map and never ban or log |
| Trace.RunAll | main.py:16-18 | Over any input sequence without owner commands, the trust set and the bindings stay as they were |
| Trace.SuppressedRun | main.py:54-55 | While an untrusted executor is in cooldown, any number of changes attributed to them change no state and request no ban or log |
| Trace.BurstBannedOnce | main.py:51-56 | A burst of changes by one untrusted executor within one window, starting outside cooldown, bans them exactly once and records the first change's time |
| Trace.PunishedAgainAfterWindow | main.py:54-56 | A change at or after the end of the window bans the executor again |
| Trace.OwnerNeverPunished | main.py:77 | Changes attributed to the owner change nothing and request nothing, in every state |
| Trace.RoleDeleteThenKickScenario | main.py:112-118 | From the start-up state (only the owner trusted, both maps empty), a role deletion at 0 and a kick at 5 by the same untrusted user give one ban, one log record, a cooldown entry at 0 and an unchanged trust set |

## Left out

- Platform I/O: `guild.ban`, `channel.delete`, `channel.send`,
  `create_text_channel`, `audit_logs`, `on_ready` and `bot.run`. These become
  requested effects or inputs.
- Concurrency: handlers are async and can interleave. The source has no `await`
  between the cooldown check and the record, so each handler is one atomic
  transition.
- Floating-point time: the source reads `datetime.utcnow().timestamp()` as a
  float. Time here is whole seconds supplied as input.
- Message text: mentions, emoji, error text and reply wording. A reason is an
  event-kind tag carrying its target. A reply is a tag.
- `showlog` and `whitelist_show`: read-only displays.
- Startup: token loading from the environment.
- A link-posting content filter and a persisted trust-list file: neither is in
  `main.py`.
- A raising audit query, for example without the audit-log permission: it ends
  the handler with no effect. That is the same as the empty entry sequence used
  here.
- An executor that is not a guild member: the code would raise on
  `guild_permissions` unless the id is the owner's or is in the trust set. Entries here always
  carry the administrator flag.
- Delivery of `Log` requests is not wired into `Trace.RunAll`. It needs the
  guild's channel list, which is platform state. `LogChannel.SendLog` gives the
  destination for one request.
- A channel created by `get_log_channel` is not added back to the channel
  list. The list is an input.
- Cooldown.Punish: log delivery is taken to raise either on both attempts
  within one step or on neither. A mixed outcome, such as a transient send
  error, is not modelled.
- Events.Handle: every entry of one query result uses the same clock reading
  and platform outcome. With the query's limit of one this loses nothing.

=== FILE: commands.dfy ===
/** The owner-only configuration commands. Anyone else gets a refusal and the
    state is left as it was. */
module Commands {
  import opened Types
  import opened Trust
  import LogChannel

  /** A command's new state and the reply it posts. */
  datatype CommandResult = CommandResult(state: State, reply: Reply)

  /** `setlog`: bind this guild's log channel. */
  function SetLog(s: State, author: UserId, guild: GuildId, channel: ChannelId): (r: CommandResult)
    ensures author != OWNER_ID ==> r == CommandResult(s, NotAllowed)
    ensures author == OWNER_ID ==>
              && r.reply == LogChannelSet(channel)
              && r.state.whitelist == s.whitelist
              && r.state.recentlyPunished == s.recentlyPunished
              && guild in r.state.logChannels && r.state.logChannels[guild] == channel
              && r.state.logChannels.Keys == s.logChannels.Keys + {guild}
              && forall g :: g in s.logChannels && g != guild ==> r.state.logChannels[g] == s.logChannels[g]
  {
    if author != OWNER_ID then CommandResult(s, NotAllowed)
    else CommandResult(s.(logChannels := s.logChannels[guild := channel]), LogChannelSet(channel))
  }

  /** `whitelist_add`: trust a member. */
  function WhitelistAdd(s: State, author: UserId, member: UserId): (r: CommandResult)
    ensures author != OWNER_ID ==> r == CommandResult(s, NotAllowed)
    ensures author == OWNER_ID ==>
              && r.reply == Whitelisted(member)
              && r.state.recentlyPunished == s.recentlyPunished
              && r.state.logChannels == s.logChannels
              && member in r.state.whitelist
              && forall u :: u != member ==> (u in r.state.whitelist <==> u in s.whitelist)
  {
    if author != OWNER_ID then CommandResult(s, NotAllowed)
    else CommandResult(s.(whitelist := s.whitelist + {member}), Whitelisted(member))
  }

  /** `whitelist_remove`: stop trusting a member; removing an absent id is not
      an error. */
  function WhitelistRemove(s: State, author: UserId, member: UserId): (r: CommandResult)
    ensures author != OWNER_ID ==> r == CommandResult(s, NotAllowed)
    ensures author == OWNER_ID ==>
              && r.reply == Unwhitelisted(member)
              && r.state.recentlyPunished == s.recentlyPunished
              && r.state.logChannels == s.logChannels
              && member !in r.state.whitelist
              && forall u :: u != member ==> (u in r.state.whitelist <==> u in s.whitelist)
  {
    if author != OWNER_ID then CommandResult(s, NotAllowed)
    else CommandResult(s.(whitelist := s.whitelist - {member}), Unwhitelisted(member))
  }

  /** Adding then removing an untrusted member restores the state. */
  lemma RemoveUndoesAdd(s: State, member: UserId)
    requires member !in s.whitelist
    ensures WhitelistRemove(WhitelistAdd(s, OWNER_ID, member).state, OWNER_ID, member).state == s
  {
    assert (s.whitelist + {member}) - {member} == s.whitelist;
  }

  /** Removing then re-adding a trusted member restores the state. */
  lemma AddUndoesRemove(s: State, member: UserId)
    requires member in s.whitelist
    ensures WhitelistAdd(WhitelistRemove(s, OWNER_ID, member).state, OWNER_ID, member).state == s
  {
    assert (s.whitelist - {member}) + {member} == s.whitelist;
  }

  /** Both whitelist commands are idempotent. */
  lemma WhitelistIdempotent(s: State, author: UserId, member: UserId)
    ensures var a := WhitelistAdd(s, author, member);
            WhitelistAdd(a.state, author, member) == a
    ensures var d := WhitelistRemove(s, author, member);
            WhitelistRemove(d.state, author, member) == d
  {
    assert s.whitelist + {member} + {member} == s.whitelist + {member};
    assert s.whitelist - {member} - {member} == s.whitelist - {member};
  }

  /** After the owner adds a member, that member is whitelisted whatever their
      permissions; after the owner removes them, only the administrator
      permission still whitelists them. */
  lemma TrustFollowsCommands(s: State, member: UserId, isAdmin: bool)
    ensures IsWhitelisted(WhitelistAdd(s, OWNER_ID, member).state.whitelist, member, isAdmin)
    ensures IsWhitelisted(WhitelistRemove(s, OWNER_ID, member).state.whitelist, member, isAdmin) <==> isAdmin
  {
  }

  /** The owner stays exempt after removing themselves from the trust set. */
  lemma OwnerExemptAfterSelfRemoval(s: State, isAdmin: bool)
    ensures var s' := WhitelistRemove(s, OWNER_ID, OWNER_ID).state;
            OWNER_ID !in s'.whitelist && Exempt(s'.whitelist, OWNER_ID, isAdmin)
  {
  }

  /** Once the owner binds a channel that exists in the guild, log records go
      there. */
  lemma SetLogDirectsLogs(s: State, guild: GuildId, channel: ChannelId,
                          channels: seq<LogChannel.Channel>, created: Option<ChannelId>)
    requires LogChannel.HasChannel(channels, channel)
    ensures LogChannel.ResolveLogChannel(SetLog(s, OWNER_ID, guild, channel).state.logChannels,
                                         guild, channels, created) == LogChannel.Bound(channel)
  {
  }

  /** A later `setlog` for the same guild overwrites an earlier one. */
  lemma SetLogOverwrites(s: State, guild: GuildId, c1: ChannelId, c2: ChannelId)
    ensures SetLog(SetLog(s, OWNER_ID, guild, c1).state, OWNER_ID, guild, c2) == SetLog(s, OWNER_ID, guild, c2)
  {
  }
}

=== FILE: cooldown.dfy ===
/** The punish step: a per-executor cooldown, the recorded punishment time, the
    ban request and the log record that reports its result. */
module Cooldown {
  import opened Types

  /** Whether the executor was punished less than `COOLDOWN` seconds before
      `now`. A clock that went backwards also counts as inside the window. */
  function InCooldown(recentlyPunished: map<UserId, Time>, user: UserId, now: Time): (b: bool)
    ensures user !in recentlyPunished ==> !b
    ensures user in recentlyPunished ==> (b <==> now < recentlyPunished[user] + COOLDOWN)
  {
    user in recentlyPunished && now - recentlyPunished[user] < COOLDOWN
  }

  /** What the platform does with the step's two awaited calls: whether the ban
      goes through, and whether delivering a log record raises (a log channel
      was found but sending into it failed). Delivery is taken to fail either on
      every attempt within one step or on none. */
  datatype PunishOracle = PunishOracle(banSucceeds: bool, logRaises: bool)

  /** Punish `executor` at time `now`. Inside the cooldown nothing happens.
      Otherwise the time is recorded first, then the ban is requested; a
      successful ban is followed by the auto-ban record. Anything raised by the
      ban or by that record's delivery is caught and answered with the failure
      record, whose own delivery failure escapes the step. */
  function Punish(s: State, guild: GuildId, executor: UserId, reason: Reason,
                  now: Time, oracle: PunishOracle): (r: Transition)
    // suppression: no state change, no ban, no log
    ensures InCooldown(s.recentlyPunished, executor, now) ==>
              r.state == s && r.effects == [] && r.outcome == Completed
    // the punishment time is recorded whatever the ban's outcome, and nothing else changes
    ensures !InCooldown(s.recentlyPunished, executor, now) ==>
              && r.state.whitelist == s.whitelist
              && r.state.logChannels == s.logChannels
              && r.state.recentlyPunished.Keys == s.recentlyPunished.Keys + {executor}
              && r.state.recentlyPunished[executor] == now
              && (forall u :: u in s.recentlyPunished && u != executor ==>
                    r.state.recentlyPunished[u] == s.recentlyPunished[u])
    // the new state starts a cooldown for the executor
    ensures !InCooldown(s.recentlyPunished, executor, now) ==>
              InCooldown(r.state.recentlyPunished, executor, now)
    // exactly one ban, requested before anything is logged
    ensures !InCooldown(s.recentlyPunished, executor, now) ==>
              Bans(r.effects) == [executor] && r.effects[0] == Ban(guild, executor, reason)
    // only bans and logs about this executor and reason, all for this guild
    ensures forall e :: e in r.effects ==>
              (e.Ban? || e.Log?) && e.guild == guild
    ensures forall rec :: rec in Logs(r.effects) ==> rec.user == executor && rec.reason == reason
    // which records are logged
    ensures !InCooldown(s.recentlyPunished, executor, now) ==>
              && (AutoBan(executor, reason) in Logs(r.effects) <==> oracle.banSucceeds)
              && (PunishFailed(executor, reason) in Logs(r.effects) <==>
                    !oracle.banSucceeds || oracle.logRaises)
              && 1 <= |Logs(r.effects)|
              && (|Logs(r.effects)| == 1 <==> !(oracle.banSucceeds && oracle.logRaises))
    // the records, in order, for each outcome of the ban and of log delivery
    ensures !InCooldown(s.recentlyPunished, executor, now) && !oracle.banSucceeds ==>
              Logs(r.effects) == [PunishFailed(executor, reason)]
    ensures !InCooldown(s.recentlyPunished, executor, now) && oracle.banSucceeds && !oracle.logRaises ==>
              Logs(r.effects) == [AutoBan(executor, reason)]
    ensures !InCooldown(s.recentlyPunished, executor, now) && oracle.banSucceeds && oracle.logRaises ==>
              Logs(r.effects) == [AutoBan(executor, reason), PunishFailed(executor, reason)]
    // only a failed delivery of the failure record escapes
    ensures r.outcome == Raised <==> !InCooldown(s.recentlyPunished, executor, now) && oracle.logRaises
  {
    if InCooldown(s.recentlyPunished, executor, now) then
      Transition(s, [], Completed)
    else
      var recorded := s.(recentlyPunished := s.recentlyPunished[executor := now]);
      var ban := Ban(guild, executor, reason);
      var failed := Log(guild, PunishFailed(executor, reason));
      var outcome := if oracle.logRaises then Raised else Completed;
      if !oracle.banSucceeds then
        Transition(recorded, [ban, failed], outcome)
      else if oracle.logRaises then
        Transition(recorded, [ban, Log(guild, AutoBan(executor, reason)), failed], outcome)
      else
        Transition(recorded, [ban, Log(guild, AutoBan(executor, reason))], Completed)
  }

  /** Once punished at `t`, the executor is suppressed at every time before
      `t + COOLDOWN`, whatever the ban's outcome. */
  lemma PunishStartsCooldown(s: State, guild: GuildId, executor: UserId, reason: Reason,
                             now: Time, oracle: PunishOracle,
                             guild': GuildId, reason': Reason, later: Time, oracle': PunishOracle)
    requires !InCooldown(s.recentlyPunished, executor, now)
    requires later - now < COOLDOWN
    ensures var t := Punish(s, guild, executor, reason, now, oracle);
            Punish(t.state, guild', executor, reason', later, oracle') ==
              Transition(t.state, [], Completed)
  {
  }

  /** After the window has passed, the next step punishes again. */
  lemma CooldownExpires(s: State, guild: GuildId, executor: UserId, reason: Reason,
                        now: Time, oracle: PunishOracle)
    requires executor in s.recentlyPunished
    requires now >= s.recentlyPunished[executor] + COOLDOWN
    ensures Bans(Punish(s, guild, executor, reason, now, oracle).effects) == [executor]
    ensures Punish(s, guild, executor, reason, now, oracle).state.recentlyPunished[executor] == now
  {
  }
}

=== FILE: events.dfy ===
/** The six audit-driven handlers: attribute the change to the executor of the
    most recent matching audit entry, skip exempt executors, punish the rest. */
module Events {
  import opened Types
  import opened Trust
  import opened Cooldown

  /** The platform change events the guard listens to, with the context each
      handler uses. */
  datatype Event =
    | MemberBanned(guild: GuildId, user: UserId)
    | MemberRemoved(guild: GuildId, member: UserId)
    | ChannelCreated(guild: GuildId, channel: ChannelId)
    | ChannelDeleted(guild: GuildId, channel: ChannelId)
    | RoleDeleted(guild: GuildId, role: string)
    | RoleUpdated(guild: GuildId, roleBefore: string)

  /** An audit-log entry of the event's action kind, reduced to its executor and
      whether that executor holds the administrator permission. */
  datatype AuditEntry = AuditEntry(executor: UserId, isAdmin: bool)

  /** The reason each handler passes to the punish step. */
  function ReasonFor(ev: Event): (r: Reason)
    ensures r.UnauthorizedBan? <==> ev.MemberBanned?
    ensures r.UnauthorizedKick? <==> ev.MemberRemoved?
    ensures r.UnauthorizedChannelCreation? <==> ev.ChannelCreated?
    ensures r.UnauthorizedChannelDeletion? <==> ev.ChannelDeleted?
    ensures r.UnauthorizedRoleDeletion? <==> ev.RoleDeleted?
    ensures r.UnauthorizedRoleUpdate? <==> ev.RoleUpdated?
    // the reason names the target the handler mentions
    ensures ev.MemberBanned? ==> r == UnauthorizedBan(ev.user)
    ensures ev.MemberRemoved? ==> r == UnauthorizedKick(ev.member)
    ensures ev.RoleDeleted? ==> r == UnauthorizedRoleDeletion(ev.role)
    ensures ev.RoleUpdated? ==> r == UnauthorizedRoleUpdate(ev.roleBefore)
  {
    match ev
    case MemberBanned(_, user) => UnauthorizedBan(user)
    case MemberRemoved(_, member) => UnauthorizedKick(member)
    case ChannelCreated(_, _) => UnauthorizedChannelCreation
    case ChannelDeleted(_, _) => UnauthorizedChannelDeletion
    case RoleDeleted(_, role) => UnauthorizedRoleDeletion(role)
    case RoleUpdated(_, roleBefore) => UnauthorizedRoleUpdate(roleBefore)
  }

  /** Whether the guard leaves this entry's executor alone. */
  predicate ExemptEntry(s: State, e: AuditEntry)
  {
    Exempt(s.whitelist, e.executor, e.isAdmin)
  }

  /** The body of a handler for one audit entry. A created channel is also
      deleted, even when the punish step was suppressed; a failed deletion is
      ignored, but an exception escaping the punish step skips the deletion. */
  function HandleEntry(s: State, ev: Event, e: AuditEntry, now: Time, oracle: PunishOracle): (r: Transition)
    // exemption: owner, trusted or administrator executors cause nothing
    ensures ExemptEntry(s, e) ==> r == Transition(s, [], Completed)
    // only the cooldown map can change, and only at the executor
    ensures r.state.whitelist == s.whitelist && r.state.logChannels == s.logChannels
    ensures r.state.recentlyPunished.Keys <= s.recentlyPunished.Keys + {e.executor}
    ensures forall u :: u in s.recentlyPunished && u != e.executor ==>
              u in r.state.recentlyPunished && r.state.recentlyPunished[u] == s.recentlyPunished[u]
    // an untrusted executor outside the cooldown is banned once, and at least one record is logged
    ensures !ExemptEntry(s, e) && !InCooldown(s.recentlyPunished, e.executor, now) ==>
              && Bans(r.effects) == [e.executor]
              && |Logs(r.effects)| >= 1
              && r.state.recentlyPunished == s.recentlyPunished[e.executor := now]
    // inside the cooldown the state stays and nothing is banned or logged
    ensures InCooldown(s.recentlyPunished, e.executor, now) ==> r.state == s && Quiet(r.effects)
    // the ban targets the executor in the event's guild, with this handler's reason
    ensures forall x :: x in r.effects && x.Ban? ==> x == Ban(ev.guild, e.executor, ReasonFor(ev))
    // every record is about the executor, with this handler's reason, in the event's guild
    ensures forall x :: x in r.effects && x.Log? ==>
              x.guild == ev.guild && x.record.user == e.executor && x.record.reason == ReasonFor(ev)
    // only a channel-creation handler deletes, and it deletes the created channel
    // exactly when the executor is untrusted and the punish step did not raise
    ensures forall d :: d in r.effects && d.DeleteChannel? ==> ev.ChannelCreated? && d.channel == ev.channel
    ensures ev.ChannelCreated? ==>
              (DeleteChannel(ev.channel) in r.effects <==> !ExemptEntry(s, e) && r.outcome == Completed)
    ensures !ev.ChannelCreated? ==> forall d :: d in r.effects ==> !d.DeleteChannel?
    // the handler logs exactly the punish step's records and requests nothing but
    // bans, logs and deletions, with at most one deletion, as its last effect
    ensures !ExemptEntry(s, e) ==>
              Logs(r.effects) == Logs(Punish(s, ev.guild, e.executor, ReasonFor(ev), now, oracle).effects)
    ensures forall x :: x in r.effects ==> x.Ban? || x.Log? || x.DeleteChannel?
    ensures forall k :: 0 <= k < |r.effects| && r.effects[k].DeleteChannel? ==> k == |r.effects| - 1
    // an exception escapes only from a non-suppressed punish step whose log delivery raised
    ensures r.outcome == Raised <==>
              !ExemptEntry(s, e) && !InCooldown(s.recentlyPunished, e.executor, now) && oracle.logRaises
  {
    if ExemptEntry(s, e) then
      Transition(s, [], Completed)
    else
      var p := Punish(s, ev.guild, e.executor, ReasonFor(ev), now, oracle);
      if ev.ChannelCreated? && p.outcome == Completed then
        BansAppend(p.effects, [DeleteChannel(ev.channel)]);
        LogsAppend(p.effects, [DeleteChannel(ev.channel)]);
        Transition(p.state, p.effects + [DeleteChannel(ev.channel)], Completed)
      else
        p
  }

  /** A whole handler: `entries` is what the audit-log query (newest first,
      limit one) returned, handled in order until an exception escapes. */
  function Handle(s: State, ev: Event, entries: seq<AuditEntry>, now: Time, oracle: PunishOracle): (r: Transition)
    // attribution miss is silent
    ensures entries == [] ==> r == Transition(s, [], Completed)
    // exempt executors cause nothing
    ensures (forall e :: e in entries ==> ExemptEntry(s, e)) ==> r == Transition(s, [], Completed)
    // events never touch the trust set or the log bindings
    ensures r.state.whitelist == s.whitelist && r.state.logChannels == s.logChannels
    // cooldown entries change only for the attributed executors
    ensures forall u :: u in s.recentlyPunished && (forall e :: e in entries ==> e.executor != u) ==>
              u in r.state.recentlyPunished && r.state.recentlyPunished[u] == s.recentlyPunished[u]
    // whoever is banned is an attributed, non-exempt executor
    ensures forall u :: u in Bans(r.effects) ==>
              exists e :: e in entries && e.executor == u && !ExemptEntry(s, e)
    decreases |entries|
  {
    if entries == [] then
      Transition(s, [], Completed)
    else
      var t := HandleEntry(s, ev, entries[0], now, oracle);
      if t.outcome == Raised then
        t
      else
        var rest := Handle(t.state, ev, entries[1..], now, oracle);
        BansAppend(t.effects, rest.effects);
        assert forall e :: e in entries[1..] ==> e in entries;
        Transition(rest.state, t.effects + rest.effects, rest.outcome)
  }

  /** With the query's limit of one entry, a handler is its body run once. */
  lemma HandleSingle(s: State, ev: Event, e: AuditEntry, now: Time, oracle: PunishOracle)
    ensures Handle(s, ev, [e], now, oracle) == HandleEntry(s, ev, e, now, oracle)
  {
    assert [e][1..] == [];
  }

  /** A created channel is deleted when its untrusted creator is still inside the
      cooldown, with no second ban and no log. */
  lemma SuppressedCreationStillDeleted(s: State, guild: GuildId, channel: ChannelId, e: AuditEntry,
                                       now: Time, oracle: PunishOracle)
    requires !ExemptEntry(s, e) && InCooldown(s.recentlyPunished, e.executor, now)
    ensures Handle(s, ChannelCreated(guild, channel), [e], now, oracle) ==
            Transition(s, [DeleteChannel(channel)], Completed)
  {
    HandleSingle(s, ChannelCreated(guild, channel), e, now, oracle);
  }

  /** Outside the cooldown, a channel created by an untrusted executor is
      deleted after the ban unless log delivery raised. */
  lemma UnsuppressedCreationDeleted(s: State, guild: GuildId, channel: ChannelId, e: AuditEntry,
                                    now: Time, oracle: PunishOracle)
    requires !ExemptEntry(s, e) && !InCooldown(s.recentlyPunished, e.executor, now)
    ensures var r := Handle(s, ChannelCreated(guild, channel), [e], now, oracle);
            && Bans(r.effects) == [e.executor]
            && (DeleteChannel(channel) in r.effects <==> !oracle.logRaises)
  {
    HandleSingle(s, ChannelCreated(guild, channel), e, now, oracle);
  }
}

=== FILE: logchannel.dfy ===
/** Where log records go: the bound channel if it still exists, else the first
    text channel called `security-logs`, else a newly created one, else nowhere. */
module LogChannel {
  import opened Types

  /** A channel of the guild as the platform lists it, in position order. */
  datatype Channel = Channel(id: ChannelId, name: string, isText: bool)

  /** How the log destination was found. */
  datatype Resolution =
    | Bound(channel: ChannelId)
    | Named(channel: ChannelId)
    | Created(channel: ChannelId)
    | Unavailable

  /** A record delivered into a channel. */
  datatype Delivery = Delivery(channel: ChannelId, record: LogRecord)

  /** The guild still has a channel (of any kind) with this id. */
  predicate HasChannel(channels: seq<Channel>, id: ChannelId)
  {
    exists i :: 0 <= i < |channels| && channels[i].id == id
  }

  /** A text channel carrying the given name. */
  predicate IsTextNamed(c: Channel, name: string)
  {
    c.isText && c.name == name
  }

  /** The position of the first text channel called `name` at or after `from`. */
  function FirstTextNamed(channels: seq<Channel>, name: string, from: nat): (r: Option<nat>)
    requires from <= |channels|
    ensures r.Some? ==> from <= r.value < |channels| && IsTextNamed(channels[r.value], name)
    ensures r.Some? ==> forall j :: from <= j < r.value ==> !IsTextNamed(channels[j], name)
    ensures r.None? ==> forall j :: from <= j < |channels| ==> !IsTextNamed(channels[j], name)
    decreases |channels| - from
  {
    if from == |channels| then None
    else if IsTextNamed(channels[from], name) then Some(from)
    else FirstTextNamed(channels, name, from + 1)
  }

  /** The log-channel lookup. `created` is what asking the platform to create a
      `security-logs` text channel would yield: its id, or `None` when the
      request raises. It is consulted only when both lookups miss. */
  function ResolveLogChannel(bindings: map<GuildId, ChannelId>, guild: GuildId,
                             channels: seq<Channel>, created: Option<ChannelId>): (r: Resolution)
    // 1. a bound channel that still exists wins
    ensures r.Bound? <==> guild in bindings && HasChannel(channels, bindings[guild])
    ensures r.Bound? ==> r.channel == bindings[guild]
    // 2. otherwise the first text channel with the default name
    ensures r.Named? <==>
              !(guild in bindings && HasChannel(channels, bindings[guild]))
              && exists i :: 0 <= i < |channels| && IsTextNamed(channels[i], LOG_CHANNEL_NAME)
    ensures r.Named? ==>
              exists i :: 0 <= i < |channels| && channels[i].id == r.channel
                && IsTextNamed(channels[i], LOG_CHANNEL_NAME)
                && forall j :: 0 <= j < i ==> !IsTextNamed(channels[j], LOG_CHANNEL_NAME)
    // 3. otherwise a freshly created one
    ensures r.Created? <==>
              !(guild in bindings && HasChannel(channels, bindings[guild]))
              && (forall i :: 0 <= i < |channels| ==> !IsTextNamed(channels[i], LOG_CHANNEL_NAME))
              && created.Some?
    ensures r.Created? ==> created == Some(r.channel)
    // 4. and nothing when creation fails
    ensures r.Unavailable? <==>
              !(guild in bindings && HasChannel(channels, bindings[guild]))
              && (forall i :: 0 <= i < |channels| ==> !IsTextNamed(channels[i], LOG_CHANNEL_NAME))
              && created.None?
  {
    if guild in bindings && HasChannel(channels, bindings[guild]) then
      Bound(bindings[guild])
    else
      match FirstTextNamed(channels, LOG_CHANNEL_NAME, 0)
      case Some(i) => Named(channels[i].id)
      case None =>
        match created
        case Some(id) => Created(id)
        case None => Unavailable
  }

  /** `send_log`: deliver the record into the resolved channel, or drop it. */
  function SendLog(bindings: map<GuildId, ChannelId>, guild: GuildId, channels: seq<Channel>,
                   created: Option<ChannelId>, record: LogRecord): (d: Option<Delivery>)
    ensures d.None? <==> ResolveLogChannel(bindings, guild, channels, created).Unavailable?
    ensures d.Some? ==> d.value.record == record
    ensures d.Some? ==> d.value.channel == ResolveLogChannel(bindings, guild, channels, created).channel
  {
    match ResolveLogChannel(bindings, guild, channels, created)
    case Unavailable => None
    case Bound(c) => Some(Delivery(c, record))
    case Named(c) => Some(Delivery(c, record))
    case Created(c) => Some(Delivery(c, record))
  }

  /** A record is dropped only when every lookup misses and creating the
      channel fails; in particular a successful creation always receives it. */
  lemma SendLogDropsOnlyWithoutChannel(bindings: map<GuildId, ChannelId>, guild: GuildId,
                                       channels: seq<Channel>, created: Option<ChannelId>,
                                       record: LogRecord)
    ensures SendLog(bindings, guild, channels, created, record).None? ==>
              created.None? && !(guild in bindings && HasChannel(channels, bindings[guild]))
    ensures created.Some? ==> SendLog(bindings, guild, channels, created, record).Some?
  {
  }

  /** A stale binding (its channel was deleted) is skipped exactly as if no
      channel were bound. */
  lemma StaleBindingIgnored(bindings: map<GuildId, ChannelId>, guild: GuildId,
                            channels: seq<Channel>, created: Option<ChannelId>)
    requires guild in bindings && !HasChannel(channels, bindings[guild])
    ensures ResolveLogChannel(bindings, guild, channels, created) ==
            ResolveLogChannel(bindings - {guild}, guild, channels, created)
  {
  }

  /** Creation is attempted only when both lookups miss: otherwise its outcome
      does not matter. */
  lemma CreationOnlyAsLastResort(bindings: map<GuildId, ChannelId>, guild: GuildId,
                                 channels: seq<Channel>, c1: Option<ChannelId>, c2: Option<ChannelId>)
    requires (guild in bindings && HasChannel(channels, bindings[guild]))
             || exists i :: 0 <= i < |channels| && IsTextNamed(channels[i], LOG_CHANNEL_NAME)
    ensures ResolveLogChannel(bindings, guild, channels, c1) ==
            ResolveLogChannel(bindings, guild, channels, c2)
  {
  }
}

=== FILE: trace.dfy ===
/** The guard over a sequence of inputs: events and commands applied one after
    another, each as one atomic transition. */
module Trace {
  import opened Types
  import opened Trust
  import opened Cooldown
  import opened Events
  import Commands

  datatype Command =
    | SetLogCmd(channel: ChannelId)
    | WhitelistAddCmd(member: UserId)
    | WhitelistRemoveCmd(member: UserId)

  /** One input: an audited change with what the audit query, the clock and
      the platform answer, or a command invoked in a guild. */
  datatype Input =
    | Happened(ev: Event, entries: seq<AuditEntry>, now: Time, oracle: PunishOracle)
    | Invoked(author: UserId, guild: GuildId, cmd: Command)

  /** The final state and every effect requested along the way. */
  datatype Run = Run(state: State, effects: seq<Effect>)

  function Apply(s: State, i: Input): (r: Transition)
    ensures !(i.Invoked? && i.author == OWNER_ID) ==>
              r.state.whitelist == s.whitelist && r.state.logChannels == s.logChannels
    ensures i.Invoked? ==> r.state.recentlyPunished == s.recentlyPunished && Quiet(r.effects)
  {
    match i
    case Happened(ev, entries, now, oracle) => Handle(s, ev, entries, now, oracle)
    case Invoked(author, guild, cmd) =>
      var c := match cmd
        case SetLogCmd(channel) => Commands.SetLog(s, author, guild, channel)
        case WhitelistAddCmd(member) => Commands.WhitelistAdd(s, author, member)
        case WhitelistRemoveCmd(member) => Commands.WhitelistRemove(s, author, member);
      Transition(c.state, [Answer(c.reply)], Completed)
  }

  /** Inputs in order. An exception escaping one handler ends that handler
      only; the guard goes on with the next input. */
  function RunAll(s: State, inputs: seq<Input>): (r: Run)
    // the trust set and the log bindings change only through owner commands
    ensures (forall i :: i in inputs ==> !(i.Invoked? && i.author == OWNER_ID)) ==>
              r.state.whitelist == s.whitelist && r.state.logChannels == s.logChannels
    decreases |inputs|
  {
    if inputs == [] then Run(s, [])
    else
      var t := Apply(s, inputs[0]);
      var rest := RunAll(t.state, inputs[1..]);
      assert forall i :: i in inputs[1..] ==> i in inputs;
      Run(rest.state, t.effects + rest.effects)
  }

  lemma RunAllCons(s: State, i: Input, rest: seq<Input>)
    ensures RunAll(s, [i] + rest) ==
            var t := Apply(s, i);
            var r := RunAll(t.state, rest);
            Run(r.state, t.effects + r.effects)
  {
    assert ([i] + rest)[0] == i;
    assert ([i] + rest)[1..] == rest;
  }

  /** An audited change attributed to `u`, a non-administrator, at a time less
      than `COOLDOWN` seconds after `t0`. */
  predicate AttributedWithin(i: Input, u: UserId, t0: Time)
  {
    && i.Happened?
    && |i.entries| == 1
    && i.entries[0] == AuditEntry(u, false)
    && i.now - t0 < COOLDOWN
  }

  /** While `u` is in cooldown since `t0`, changes attributed to `u` change no
      state and are neither banned nor logged. */
  lemma {:induction false} SuppressedRun(s: State, u: UserId, t0: Time, inputs: seq<Input>)
    requires u != OWNER_ID && u !in s.whitelist
    requires u in s.recentlyPunished && s.recentlyPunished[u] == t0
    requires forall i :: i in inputs ==> AttributedWithin(i, u, t0)
    ensures RunAll(s, inputs).state == s
    ensures Quiet(RunAll(s, inputs).effects)
    decreases |inputs|
  {
    if inputs != [] {
      var i := inputs[0];
      assert AttributedWithin(i, u, t0);
      HandleSingle(s, i.ev, AuditEntry(u, false), i.now, i.oracle);
      var t := Apply(s, i);
      assert t.state == s;
      assert forall j :: j in inputs[1..] ==> j in inputs;
      SuppressedRun(s, u, t0, inputs[1..]);
      var rest := RunAll(s, inputs[1..]);
      BansAppend(t.effects, rest.effects);
      LogsAppend(t.effects, rest.effects);
    }
  }

  /** A burst of changes by one untrusted executor within one cooldown window,
      starting outside any earlier cooldown, bans that executor exactly once. */
  lemma BurstBannedOnce(s: State, u: UserId, inputs: seq<Input>)
    requires |inputs| >= 1 && inputs[0].Happened?
    requires u != OWNER_ID && u !in s.whitelist
    requires !InCooldown(s.recentlyPunished, u, inputs[0].now)
    requires forall i :: i in inputs ==> AttributedWithin(i, u, inputs[0].now)
    ensures Bans(RunAll(s, inputs).effects) == [u]
    ensures RunAll(s, inputs).state.recentlyPunished == s.recentlyPunished[u := inputs[0].now]
  {
    var first := inputs[0];
    var t0 := first.now;
    assert AttributedWithin(first, u, t0);
    HandleSingle(s, first.ev, AuditEntry(u, false), t0, first.oracle);
    var t := Apply(s, first);
    assert t.state == s.(recentlyPunished := s.recentlyPunished[u := t0]);
    assert forall j :: j in inputs[1..] ==> j in inputs;
    SuppressedRun(t.state, u, t0, inputs[1..]);
    BansAppend(t.effects, RunAll(t.state, inputs[1..]).effects);
  }

  /** A change at or after the end of the window is punished again. */
  lemma PunishedAgainAfterWindow(s: State, ev: Event, u: UserId, now: Time, oracle: PunishOracle)
    requires u != OWNER_ID && u !in s.whitelist
    requires u in s.recentlyPunished && now >= s.recentlyPunished[u] + COOLDOWN
    ensures Bans(Apply(s, Happened(ev, [AuditEntry(u, false)], now, oracle)).effects) == [u]
  {
    HandleSingle(s, ev, AuditEntry(u, false), now, oracle);
  }

  /** Changes attributed to the owner cause nothing, in every state, including
      one where the owner has removed themselves from the trust set. */
  lemma {:induction false} OwnerNeverPunished(s: State, ev: Event, entries: seq<AuditEntry>,
                                               now: Time, oracle: PunishOracle)
    requires forall e :: e in entries ==> e.executor == OWNER_ID
    ensures Apply(s, Happened(ev, entries, now, oracle)) == Transition(s, [], Completed)
  {
    assert forall e :: e in entries ==> ExemptEntry(s, e);
  }

  /** A role deletion then a kick by one user: starting from the start-up
      state, user 1 deletes a role at time 0 and kicks a member at time 5; only
      the first change is punished and logged, and the trust set still holds
      just the owner. */
  lemma RoleDeleteThenKickScenario(guild: GuildId, oracle: PunishOracle)
    requires !oracle.logRaises
    ensures var s := INITIAL;
            var run := RunAll(s, [Happened(RoleDeleted(guild, "mods"), [AuditEntry(1, false)], 0, oracle),
                                  Happened(MemberRemoved(guild, 7), [AuditEntry(1, false)], 5, oracle)]);
            && Bans(run.effects) == [1]
            && |Logs(run.effects)| == 1
            && run.state.recentlyPunished == map[1 := 0]
            && run.state.whitelist == {OWNER_ID}
  {
    var s := INITIAL;
    var i1 := Happened(RoleDeleted(guild, "mods"), [AuditEntry(1, false)], 0, oracle);
    var i2 := Happened(MemberRemoved(guild, 7), [AuditEntry(1, false)], 5, oracle);
    HandleSingle(s, i1.ev, AuditEntry(1, false), 0, oracle);
    var t1 := Apply(s, i1);
    HandleSingle(t1.state, i2.ev, AuditEntry(1, false), 5, oracle);
    var t2 := Apply(t1.state, i2);
    assert t2.effects == [] && t2.state == t1.state;
    RunAllCons(s, i1, [i2]);
    RunAllCons(t1.state, i2, []);
    assert [i1, i2] == [i1] + [i2];
    assert t1.effects + (t2.effects + []) == t1.effects;
  }
}

=== FILE: trust.dfy ===
/** The trust decision: who the guard leaves alone. */
module Trust {
  import opened Types

  /** A user is whitelisted when their id is in the trust set or they hold the
      administrator permission in the guild (an input read from the platform). */
  function IsWhitelisted(whitelist: set<UserId>, user: UserId, isAdmin: bool): (b: bool)
    ensures isAdmin ==> b
    ensures user in whitelist ==> b
    ensures b && !isAdmin ==> user in whitelist
  {
    user in whitelist || isAdmin
  }

  /** Every audit-driven handler skips the owner before asking about the trust
      set, so the owner is exempt whatever the trust set holds. */
  function Exempt(whitelist: set<UserId>, user: UserId, isAdmin: bool): (b: bool)
    ensures user == OWNER_ID ==> b
    ensures IsWhitelisted(whitelist, user, isAdmin) ==> b
    ensures b && user != OWNER_ID ==> user in whitelist || isAdmin
  {
    user == OWNER_ID || IsWhitelisted(whitelist, user, isAdmin)
  }
}

=== FILE: types.dfy ===
/** Shared vocabulary of the guard: identifiers, configuration constants, the
    in-process state, and the effects a transition asks the platform to perform. */
module Types {

  /** Platform snowflake identifiers; only equality matters to the policy. */
  type UserId = int
  type GuildId = int
  type ChannelId = int

  /** Wall-clock seconds. The guard reads a float timestamp; whole seconds suffice here. */
  type Time = int

  /** The single designated owner principal. */
  const OWNER_ID: UserId := 1363029073328078848

  /** Length of the per-executor punishment cooldown, in seconds. */
  const COOLDOWN: int := 15

  /** Name of the fallback log channel that is looked up or created. */
  const LOG_CHANNEL_NAME: string := "security-logs"

  datatype Option<T> = None | Some(value: T)

  /** The three pieces of process-global state: the trust set, the cooldown map
      from executor to the time of their last punishment, and the per-guild log
      channel binding. */
  datatype State = State(
    whitelist: set<UserId>,
    recentlyPunished: map<UserId, Time>,
    logChannels: map<GuildId, ChannelId>)

  /** At start-up only the owner is trusted and both maps are empty. */
  const INITIAL: State := State({OWNER_ID}, map[], map[])

  /** Why an executor is punished; one tag per audited event kind, carrying the
      target the log text mentions. */
  datatype Reason =
    | UnauthorizedBan(banned: UserId)
    | UnauthorizedKick(kicked: UserId)
    | UnauthorizedChannelCreation
    | UnauthorizedChannelDeletion
    | UnauthorizedRoleDeletion(role: string)
    | UnauthorizedRoleUpdate(role: string)

  /** The two records the punish step can write to the log. */
  datatype LogRecord =
    | AutoBan(user: UserId, reason: Reason)
    | PunishFailed(user: UserId, reason: Reason)

  /** What a configuration command answers in the invoking channel. */
  datatype Reply =
    | NotAllowed
    | LogChannelSet(channel: ChannelId)
    | Whitelisted(member: UserId)
    | Unwhitelisted(member: UserId)

  /** Requests to the platform. `Log` is a request to deliver a record to the
      guild's log channel, resolved as `LogChannel.SendLog` describes. */
  datatype Effect =
    | Ban(guild: GuildId, user: UserId, reason: Reason)
    | DeleteChannel(channel: ChannelId)
    | Log(guild: GuildId, record: LogRecord)
    | Answer(reply: Reply)

  /** Whether a handler ran to completion or an exception escaped it. */
  datatype Outcome = Completed | Raised

  /** One atomic transition: the new state, the effects requested in order, and
      how the handler ended. */
  datatype Transition = Transition(state: State, effects: seq<Effect>, outcome: Outcome)

  /** The users a sequence of effects asks to ban, in order. */
  function Bans(effects: seq<Effect>): (users: seq<UserId>)
    ensures |users| <= |effects|
    ensures forall u :: u in users <==> exists e :: e in effects && e.Ban? && e.user == u
  {
    if effects == [] then []
    else
      var rest := Bans(effects[1..]);
      assert forall e :: e in effects <==> e == effects[0] || e in effects[1..];
      if effects[0].Ban? then [effects[0].user] + rest else rest
  }

  /** The records a sequence of effects asks to log, in order. */
  function Logs(effects: seq<Effect>): (records: seq<LogRecord>)
    ensures |records| <= |effects|
    ensures forall rec :: rec in records <==> exists g :: Log(g, rec) in effects
  {
    if effects == [] then []
    else
      var rest := Logs(effects[1..]);
      assert forall e :: e in effects <==> e == effects[0] || e in effects[1..];
      if effects[0].Log? then [effects[0].record] + rest else rest
  }

  /** No ban and no log is requested (deletions and replies may still be). */
  predicate Quiet(effects: seq<Effect>)
  {
    Bans(effects) == [] && Logs(effects) == []
  }

  lemma {:induction false} BansAppend(a: seq<Effect>, b: seq<Effect>)
    ensures Bans(a + b) == Bans(a) + Bans(b)
    decreases |a|
  {
    if a == [] {
      assert a + b == b;
    } else {
      assert (a + b)[1..] == a[1..] + b;
      BansAppend(a[1..], b);
    }
  }

  lemma {:induction false} LogsAppend(a: seq<Effect>, b: seq<Effect>)
    ensures Logs(a + b) == Logs(a) + Logs(b)
    decreases |a|
  {
    if a == [] {
      assert a + b == b;
    } else {
      assert (a + b)[1..] == a[1..] + b;
      LogsAppend(a[1..], b);
    }
  }
}
